=== FILE: README.md ===
# Find Luigi — a Dafny model of the game core

Find Luigi is a MonoGame game. A round puts 75 to 99 decoy sprites (MARIO, WARIO, YOSHI), times a count multiplier, on a 1000x1000 arena, together with exactly one LUIGI. The player has to click LUIGI:

- A LUIGI hit scores a point, may raise the difficulty, generates a new round and adds five seconds.
- A decoy hit removes that decoy and costs a life.
- A one-second clock counts the time down. The game is over when the time or the lives run out.
- While the game is over, the high score is kept up to date. The R key starts a new session.

This project models that core in three modules:

- `ListShuffle` (`ListShuffle.dfy`): the list helpers.
  - `Shuffle` is the in-place Fisher–Yates loop on an `array`. It is proved to compute `Shuffled`, a fold of one swap per iteration. The lemmas show that the result is a permutation, that positions already placed are never written again, and that short lists are kept.
  - `Reverse` is `GetReverse`. It is proved to reverse, to be its own inverse and to keep the multiset.
- `Characters` (`Character.dfy`): a sprite as a class with the program's fields.
  - `Update` is imperative. It is proved equal to the pure step `Bounce`, whose contract states the arena bound, the plain step, the clamping, the speed redraw and the coupled direction reroll.
- `Game` (`FindLuigiGame.dfy`): the session as a class with the program's fields.
  - The three static difficulty multipliers of the program are held as fields of the session.
  - The invariant `Valid` has two parts. The counters part is: the level is the one the score reached, the multipliers are that level's table row, time is never negative, and no lives means game over. The round part is: no sprite twice, exactly one LUIGI, and every sprite's box sits on its position inside the arena.
  - The operations a session runs state that they preserve `Valid`: the constructor, `GenerateRound`, `ClockTick`, `MoveCharacters`, `Click`, `HitLuigi`, `HitDecoy`, `RecordHighScore`, `Restart`, `HandleInput` and `Frame`. The debounce steps write only the flag `armed`, which `Valid` does not read.
  - The steps inside them state the part of `Valid` they touch. `ScorePoint`, `LoseLife` and `ResetSession` keep the counters part. `ShuffleCharacters` and `RemoveDecoy` keep the round part. `UpdateDifficultyMultipliers` runs only inside `ScorePoint` and `ResetSession`; it is proved equal to `ApplyLevel`, and those two callers prove the counters part from that.
  - The ghost field `luigi` names the round's LUIGI for the proofs; the program keeps no such field.

Random draws are inputs, each bounded as .NET's `Random.Next` bounds it (upper bound excluded):

- `BounceDraws` for one `Update`;
- `RoundDraws` for one `GenerateRound`, with the shuffle's draws.

The pointer position, the mouse button and the R key are inputs of `Frame` and `Click`. Timers are steps:

- the one-second game clock is `ClockTick`;
- the 500 ms click debounce is the flag `armed`, set by `StartClickTimeout` and cleared by `DebounceExpired`.

Three behaviours of the program that the model keeps:

- The direction reroll on a bounce multiplies by `1 + speed multiplier` (`FindLuigi/Character.cs:71-72, 82-83`).
- Spawn directions are a draw in {-1, 0, 1} times one `canMove` roll per round, with `canMove` in `0..direction multiplier` (`FindLuigi/FindLuigiGame.cs:234, 250-251`).
- HARD and IMPOSSIBLE do not write the direction multiplier, so they keep the 1 that MEDIUM set when the levels are reached in order (`FindLuigi/FindLuigiGame.cs:281-291`).

## Model

| member | source | states |
|---|---|---|
| ListShuffle.Reverse | FindLuigi/ListShuffle.cs:26-29 | GetReverse yields the input's elements in exactly reverse order: same length, element i is input element n-1-i |
| ListShuffle.ReverseReverse | FindLuigi/ListShuffle.cs:26-29 | reversing twice gives the input back |
| ListShuffle.ReversePermutes | FindLuigi/ListShuffle.cs:26-29 | the reversed sequence has the same elements with the same multiplicities |
| ListShuffle.Swap | FindLuigi/ListShuffle.cs:20-22 | one loop iteration exchanges positions k and n and leaves every other position as it was |
| ListShuffle.Steps | FindLuigi/ListShuffle.cs:16-23 | the list after j iterations has the input's length |
| ListShuffle.Shuffled | FindLuigi/ListShuffle.cs:16-23 | the list after the whole loop, one swap per iteration; it has the input's length (ShufflePermutes, ShortListUnchanged and StepsKeepSuffix state the rest) |
| ListShuffle.SwapPermutes | FindLuigi/ListShuffle.cs:20-22 | one swap keeps the multiset of elements |
| ListShuffle.StepPermutes | FindLuigi/ListShuffle.cs:16-23 | iteration j keeps the multiset of the list before it |
| ListShuffle.StepsPermute | FindLuigi/ListShuffle.cs:16-23 | every prefix of the loop leaves a permutation of the input |
| ListShuffle.ShufflePermutes | FindLuigi/ListShuffle.cs:13-24 | the shuffled list has the input's length and multiset: it is a permutation |
| ListShuffle.ShortListUnchanged | FindLuigi/ListShuffle.cs:15-16 | a list of zero or one elements is left unchanged |
| ListShuffle.StepsKeepSuffix | FindLuigi/ListShuffle.cs:16-23 | after j iterations the last j positions are final: later iterations never change them |
| ListShuffle.SwapKeepsDistinct | FindLuigi/ListShuffle.cs:20-22 | a swap never makes two positions hold the same element |
| ListShuffle.StepsKeepDistinct | FindLuigi/ListShuffle.cs:16-23 | a list without repeats has none after any number of iterations |
| ListShuffle.DistinctCounts | FindLuigi/ListShuffle.cs:13-24 | a list without repeats holds every element at most once |
| ListShuffle.PermutationKeepsDistinct | FindLuigi/ListShuffle.cs:13-24 | any permutation of a list without repeats, the shuffle's result among them, has no repeats |
| ListShuffle.Shuffle | FindLuigi/ListShuffle.cs:13-24 | the in-place loop with draws k in 0..n (all indices in bounds) leaves the array equal to Shuffled of its old contents |
| Characters.Clamp | FindLuigi/Character.cs:68-69 | the two-step clamp lands in [0, 936], keeps a coordinate already there, and sends one below 0 to 0 and one above 936 to 936 |
| Characters.Character.IsLuigi | FindLuigi/Character.cs:42-48 | true exactly for the LUIGI kind, false for MARIO, WARIO and YOSHI |
| Characters.Bounce | FindLuigi/Character.cs:58-87 | after a step the sprite is in [0, 936] on both axes whatever it started from. An in-range step moves by exactly direction times speed and keeps the speed. A bounce clamps to the overshot side, negates the direction and redraws the speed in {1+s, 2(1+s)}. A bounce while the other direction is zero rerolls that direction times (1+s). The step uses the directions from before the checks |
| Characters.StillSpriteStaysPut | FindLuigi/Character.cs:60-74 | a sprite with both directions zero, inside the arena, stays exactly as it is |
| Characters.Character.constructor | FindLuigi/Character.cs:32-56 | a new sprite sits at (x, y) with its 64x64 box there, has directions and speeds 1, and is LUIGI exactly when its kind is LUIGI |
| Characters.Character.Update | FindLuigi/Character.cs:58-87 | the in-place update leaves the motion equal to Bounce of the old motion, the box rebuilt on the new position, and the position in the arena |
| Game.LevelForMonotone | FindLuigi/FindLuigiGame.cs:129-139 | the level reached from zero never decreases as the score grows |
| Game.Promote | FindLuigi/FindLuigiGame.cs:129-139 | the threshold test changes the level only at the scores 5, 10, 25 and 50. From the level of the previous score it gives the level of the new score, exactly one step up when it changes |
| Game.ApplyLevel | FindLuigi/FindLuigiGame.cs:270-292 | the switch from any multipliers: EASY resets all three to (0,0,1); MEDIUM sets count 2 and direction 1; HARD sets count 3; ULTRA sets count 2 and speed 2; IMPOSSIBLE sets count 3 and speed 3; every field a case does not write keeps its value |
| Game.TableBySteps | FindLuigi/FindLuigiGame.cs:268-293 | the switch applied from the initial values gives EASY (0,0,1). Applied to each level's row it gives the next row: MEDIUM (0,1,2), HARD (0,1,3), ULTRA (2,1,2), IMPOSSIBLE (3,1,3) |
| Game.PromoteKeepsTable | FindLuigi/FindLuigiGame.cs:129-142 | when the multipliers match the old score's level, recomputing them only on a level change leaves them matching the new score's level |
| Game.DecoyKind | FindLuigi/FindLuigiGame.cs:231-232 | the kind list with LUIGI removed never yields LUIGI |
| Game.SpawnVelocityOf | FindLuigi/FindLuigiGame.cs:250-253 | spawn directions are in {-canMove, 0, canMove} and speeds in {1+s, 2(1+s)} |
| Game.DecoyMotion | FindLuigi/FindLuigiGame.cs:238-253 | a decoy starts with x and y in [20, 900], never with both below 110 (the +90 corner shift), with spawn directions and speeds |
| Game.LuigiMotion | FindLuigi/FindLuigiGame.cs:258-262 | LUIGI starts on the 20-pixel grid in [20, 900], unshifted, with spawn directions and speeds |
| Game.StillRoundStaysPut | FindLuigi/FindLuigiGame.cs:234-262 | with canMove 0 (the only value at EASY) a generated sprite never moves under Update |
| Game.Hit | FindLuigi/FindLuigiGame.cs:112 | the box test: for a sprite whose box sits on its position, the point is hit exactly when x <= px < x + 64 and y <= py < y + 64 |
| Game.SelectClicked | FindLuigi/FindLuigiGame.cs:107-125 | nothing is selected exactly when no box holds the point. A selected sprite is in the list and holds the point. If a LUIGI holds the point, a LUIGI is selected. Otherwise the last sprite in list order that holds the point is selected |
| Game.RemoveFirst | FindLuigi/FindLuigiGame.cs:151 | List.Remove: a list without x is kept; otherwise exactly one element is removed |
| Game.RemoveFirstAt | FindLuigi/FindLuigiGame.cs:151 | when index i holds the first occurrence of its value, List.Remove removes index i and keeps the others in order |
| Game.RemoveAtDistinct | FindLuigi/FindLuigiGame.cs:151 | removing one index from a list without repeats leaves a list without repeats |
| Game.RemoveAtMembers | FindLuigi/FindLuigiGame.cs:151 | removing index i keeps exactly the elements other than the removed one |
| Game.GoodRoundOneLuigi | FindLuigi/FindLuigiGame.cs:258-264 | a round satisfying the invariant holds exactly one LUIGI |
| Game.RemovedDecoyKeepsRound | FindLuigi/FindLuigiGame.cs:149-151 | removing a clicked decoy removes exactly its index and leaves a round with one LUIGI, no repeats, all sprites placed |
| Game.PermutedRound | FindLuigi/FindLuigiGame.cs:265 | any permutation of a good round is a good round: still no repeats, the same single LUIGI, every sprite placed |
| Game.ShuffledRound | FindLuigi/FindLuigiGame.cs:265 | shuffling a good round gives a good round with the same sprites |
| Game.FindLuigiGame.constructor | FindLuigi/FindLuigiGame.cs:36-77 | the session starts at score 0, 5 lives, 30 seconds, high score 0, EASY with (0,0,1), not over, debounce off. Its round has population + 1 newly created sprites and is the shuffle, by the draws, of a list spawned from the draws: decoys with their drawn kinds and motions, then LUIGI |
| Game.FindLuigiGame.NewDecoy | FindLuigi/FindLuigiGame.cs:238-253 | a fresh decoy of the drawn non-LUIGI kind, placed, with DecoyMotion |
| Game.FindLuigiGame.NewLuigi | FindLuigi/FindLuigiGame.cs:258-262 | a fresh LUIGI, placed, with LuigiMotion |
| Game.FindLuigiGame.BuildRound | FindLuigi/FindLuigiGame.cs:228-264 | the loop builds one fresh decoy per draw, in draw order, with its kind and motion, then appends the LUIGI. The list has no repeats and exactly one LUIGI |
| Game.FindLuigiGame.ShuffleCharacters | FindLuigi/FindLuigiGame.cs:265 | the list becomes Shuffled of the old list, keeps its sprites and keeps the round invariant |
| Game.FindLuigiGame.GenerateRound | FindLuigi/FindLuigiGame.cs:226-266 | the new list has population times count multiplier plus one fresh sprites and exactly one LUIGI. It is the shuffle of the built list, where decoy i has draw i's kind and motion and the last sprite is LUIGI with its motion. The invariant holds |
| Game.FindLuigiGame.UpdateDifficultyMultipliers | FindLuigi/FindLuigiGame.cs:268-293 | the multipliers become ApplyLevel of the current level and the old multipliers |
| Game.FindLuigiGame.StartClickTimeout | FindLuigi/FindLuigiGame.cs:295-300 | the debounce is armed |
| Game.FindLuigiGame.DebounceExpired | FindLuigi/FindLuigiGame.cs:302-308 | when the debounce timer elapses, clicks are accepted again |
| Game.FindLuigiGame.ClockTick | FindLuigi/FindLuigiGame.cs:310-326 | time drops by one when positive and the game runs; otherwise the game is over with time kept. Time never goes negative and the invariant holds |
| Game.FindLuigiGame.MoveCharacters | FindLuigi/FindLuigiGame.cs:98-102 | every sprite takes exactly one Bounce with its own draws, or none when the game is over. Every box stays on its sprite inside the arena |
| Game.FindLuigiGame.Click | FindLuigi/FindLuigiGame.cs:104-162 | with the debounce armed, the game over, or no box holding the point, nothing changes. A LUIGI under the point scores one, adds five seconds, keeps the lives and arms the debounce. The new round is the shuffle of the list spawned from the draws, with its size and fresh sprites. Otherwise the topmost sprite under the point is removed, with the others in order, and a life is lost: the debounce is armed if lives remain, else the game is over. The level never goes down, the invariant holds, and every sprite of the new list was in the old list or is new |
| Game.FindLuigiGame.HitLuigi | FindLuigi/FindLuigiGame.cs:127-148 | score plus one, time plus five, lives kept, debounce armed. The level changes exactly at 5, 10, 25, 50 and never goes down. The new round has the new size and fresh sprites and is the shuffle of the list spawned from the draws at the new multipliers. The invariant is kept |
| Game.FindLuigiGame.ScorePoint | FindLuigi/FindLuigiGame.cs:129-142 | score plus one, level by the threshold test, multipliers recomputed only when the level changed, counters invariant kept |
| Game.FindLuigiGame.HitDecoy | FindLuigi/FindLuigiGame.cs:149-162 | exactly the clicked index is removed. Lives drop by one. The debounce is armed if lives remain, else the game is over. Score, time, high score, level and multipliers are kept, and so is the invariant |
| Game.FindLuigiGame.RemoveDecoy | FindLuigi/FindLuigiGame.cs:151 | List.Remove of the clicked decoy removes exactly its index and keeps the round invariant |
| Game.FindLuigiGame.LoseLife | FindLuigi/FindLuigiGame.cs:152-161 | one life fewer; debounce armed if lives remain, otherwise game over without arming |
| Game.FindLuigiGame.RecordHighScore | FindLuigi/FindLuigiGame.cs:165-166 | while over, the high score becomes max(score, high score), so it is at least the score; otherwise it is kept |
| Game.FindLuigiGame.Restart | FindLuigi/FindLuigiGame.cs:168-178 | when over: score 0, time 30, lives 5, not over, EASY with (0,0,1), high score kept. The new round of population + 1 sprites is the shuffle of the list spawned from the draws, and its sprites are new. When not over: nothing changes. Every sprite of the new list was in the old list or is new |
| Game.FindLuigiGame.ResetSession | FindLuigi/FindLuigiGame.cs:170-176 | score 0, time 30, lives 5, not over, EASY, and the switch at EASY gives (0,0,1); the counters invariant holds |
| Game.FindLuigiGame.Frame | FindLuigi/FindLuigiGame.cs:90-180 | motion, click, high score and restart in program order keep the invariant; the high score never decreases and is at least the score when over. Every sprite of the new list was in the old list or is new, so frames can be chained. While over with the R key, the high score becomes the larger of score and high score, then the session restarts at score 0, time 30, lives 5, EASY with (0,0,1), debounce kept, with population + 1 new sprites. While over and without the R key, no sprite moves and no click is processed: list, motions, score, lives, time, level and debounce are kept. A running frame without a click or the R key gives every sprite one Bounce with its own draws and keeps the list, score, lives and time |
| Game.FindLuigiGame.HandleInput | FindLuigi/FindLuigiGame.cs:104-178 | the click, high score and restart part of a frame keeps the invariant and raises the high score to at least the score when over. Every sprite of the new list was in the old list or is new. While over with the R key the session restarts with the high score recorded; while over without it, the list and counters are kept apart from the high score; a running frame without a click or the R key keeps the list, score, lives and time |

## Left out

- Rendering, content and window setup are graphics calls with nothing to state: `Draw`, text layout, `LoadContent`, `CharacterTextures`, `Initialize`'s window settings, and the Escape/Back exit.
- Input polling is not modelled. The pointer position, the left button and the R key are parameters of `Frame` and `Click`.
- Real timers and their threads are not modelled:
  - the game timer's start at the head of each frame;
  - its `Stop` and `AutoReset` in `GameTimerElapsed`;
  - the debounce timer object and its disposal;
  - the races between timer callbacks and the frame.
  - The clock and the debounce are the explicit steps `ClockTick`, `StartClickTimeout` and `DebounceExpired`.
- The random generators are not modelled. Each draw is an input, range-checked as `Random.Next` bounds it.
- MonoGame's `Rectangle.Contains` is not part of this model. It is taken to be the half-open test `x <= px < x + 64` and `y <= py < y + 64`.
- C# `int` is 32-bit; the model's integers are unbounded. Score, time and coordinates stay far from the limit in play, so wrap-around is not modelled.
- `_characters.Shuffle()` works on the `List` in place. The model copies the list into an array, runs `Shuffle` on it and reads it back. The list has no other alias, so the order is the same.
- Game.FindLuigiGame.Frame: a running frame that processes a click, and a frame where the click ends the game and the R key then restarts it, are stated only through the contracts of `Click` and `Restart` and the old-or-new fact about the list, not as a Frame-level result.
- Game.FindLuigiGame.HitLuigi: arms the debounce and adds the five seconds before generating the round, where the program generates first. Round generation reads neither field, so the resulting state is the same.
- Game.FindLuigiGame.GenerateRound: builds the new list and assigns it where the program clears `_characters` and appends to it. The old sprites are not referenced afterwards, so the resulting list is the same.

=== FILE: Character.dfy ===
/**
 * A sprite of the game: its kind, its position and velocity, its 64x64 box, and
 * the bounce rule that moves it one discrete step per frame inside the
 * 1000x1000 arena (so its top-left corner stays in [0, 936] on both axes).
 *
 * The game's speed multiplier, a process-wide static field in the program, is
 * passed to Update explicitly. The random draws Update may take on a bounce are
 * passed in as BounceDraws.
 */
module Characters {

  datatype CharacterKind = Luigi | Mario | Wario | Yoshi

  /** Side of the square box every sprite occupies. */
  const Size := 64
  /** Largest coordinate of a sprite's top-left corner: 1000 - 64. */
  const ArenaMax := 936

  predicate InArena(p: int) {
    0 <= p <= ArenaMax
  }

  /**
   * An axis-aligned box. Contains is MonoGame's Rectangle.Contains, whose code
   * is not part of this model; it is taken to be the half-open test
   * x <= px < x + width and y <= py < y + height.
   */
  datatype Rect = Rect(x: int, y: int, width: int, height: int) {
    predicate Contains(px: int, py: int) {
      x <= px < x + width && y <= py < y + height
    }
  }

  function Box(x: int, y: int): Rect {
    Rect(x, y, Size, Size)
  }

  /** Position, directions and speeds of a sprite, as one value. */
  datatype Motion = Motion(x: int, y: int, xDirection: int, yDirection: int, xSpeed: int, ySpeed: int)

  /**
   * The random draws one Update may take, in program order: on an X bounce a
   * speed factor Next(1, 3) and, when the Y direction is zero, a direction
   * Next(-1, 2); then the same for a Y bounce with the axes exchanged.
   */
  datatype BounceDraws = BounceDraws(xSpeedFactor: int, yDirectionDraw: int, ySpeedFactor: int, xDirectionDraw: int)

  predicate ValidBounceDraws(d: BounceDraws) {
    && 1 <= d.xSpeedFactor <= 2 && -1 <= d.yDirectionDraw <= 1
    && 1 <= d.ySpeedFactor <= 2 && -1 <= d.xDirectionDraw <= 1
  }

  /** A speed drawn as Next(1, 3) * (1 + speed multiplier). */
  predicate BounceSpeed(v: int, speedMultiplier: nat) {
    v == 1 + speedMultiplier || v == 2 * (1 + speedMultiplier)
  }

  /** Clamping as the program writes it: first below 0, then above 936. */
  function Clamp(p: int): (r: int)
    ensures InArena(r)
    ensures InArena(p) ==> r == p
    ensures p < 0 ==> r == 0
    ensures p > ArenaMax ==> r == ArenaMax
  {
    var low := if p < 0 then 0 else p;
    if low > ArenaMax then ArenaMax else low
  }

  /**
   * One call of Update, as a function of the motion before it. The step uses
   * the directions and speeds from before any bounce. A bounce on one axis
   * negates that axis's direction, redraws its speed, clamps the coordinate
   * and, if the other axis's direction is zero, redraws that direction as
   * Next(-1, 2) * (1 + speed multiplier).
   */
  function Bounce(m: Motion, speedMultiplier: nat, d: BounceDraws): (r: Motion)
    requires ValidBounceDraws(d)
    // whatever the motion before, the sprite ends inside the arena
    ensures InArena(r.x) && InArena(r.y)
    // no bounce on an axis: the plain step, that axis's speed kept
    ensures var nx := m.x + m.xDirection * m.xSpeed;
      InArena(nx) ==> r.x == nx && r.xSpeed == m.xSpeed
    ensures var ny := m.y + m.yDirection * m.ySpeed;
      InArena(ny) ==> r.y == ny && r.ySpeed == m.ySpeed
    // a bounce: clamped on the side it overshot, speed in {1+s, 2(1+s)}
    ensures var nx := m.x + m.xDirection * m.xSpeed;
      !InArena(nx) ==> r.x == (if nx < 0 then 0 else ArenaMax)
                       && BounceSpeed(r.xSpeed, speedMultiplier)
    ensures var ny := m.y + m.yDirection * m.ySpeed;
      !InArena(ny) ==> r.y == (if ny < 0 then 0 else ArenaMax)
                       && BounceSpeed(r.ySpeed, speedMultiplier)
    // directions: negated on a bounce, kept otherwise, unless the coupled reroll applies
    ensures var nx, ny := m.x + m.xDirection * m.xSpeed, m.y + m.yDirection * m.ySpeed;
      && (m.xDirection != 0 ==> r.xDirection == (if InArena(nx) then m.xDirection else -m.xDirection))
      && (m.xDirection == 0 && InArena(ny) ==> r.xDirection == 0)
      && (m.xDirection == 0 && !InArena(ny) ==> r.xDirection == d.xDirectionDraw * (1 + speedMultiplier))
    ensures var nx, ny := m.x + m.xDirection * m.xSpeed, m.y + m.yDirection * m.ySpeed;
      && (m.yDirection != 0 ==> r.yDirection == (if InArena(ny) then m.yDirection else -m.yDirection))
      && (m.yDirection == 0 && InArena(nx) ==> r.yDirection == 0)
      && (m.yDirection == 0 && !InArena(nx) ==>
            r.yDirection == (if InArena(ny) then 1 else -1) * d.yDirectionDraw * (1 + speedMultiplier))
  {
    // the step
    var x0 := m.x + m.xDirection * m.xSpeed;
    var y0 := m.y + m.yDirection * m.ySpeed;
    // the X check
    var xBounce := x0 > ArenaMax || x0 < 0;
    var xDir1 := if xBounce then -m.xDirection else m.xDirection;
    var xSpeed1 := if xBounce then d.xSpeedFactor * (1 + speedMultiplier) else m.xSpeed;
    var x1 := if xBounce then Clamp(x0) else x0;
    var yDir1 := if xBounce && m.yDirection == 0 then d.yDirectionDraw * (1 + speedMultiplier) else m.yDirection;
    // the Y check
    var yBounce := y0 > ArenaMax || y0 < 0;
    var yDir2 := if yBounce then -yDir1 else yDir1;
    var ySpeed2 := if yBounce then d.ySpeedFactor * (1 + speedMultiplier) else m.ySpeed;
    var y2 := if yBounce then Clamp(y0) else y0;
    var xDir2 := if yBounce && xDir1 == 0 then d.xDirectionDraw * (1 + speedMultiplier) else xDir1;
    Motion(x1, y2, xDir2, yDir2, xSpeed1, ySpeed2)
  }

  /** A sprite with both directions zero, inside the arena, stays where it is. */
  lemma StillSpriteStaysPut(m: Motion, speedMultiplier: nat, d: BounceDraws)
    requires ValidBounceDraws(d)
    requires m.xDirection == 0 && m.yDirection == 0 && InArena(m.x) && InArena(m.y)
    ensures Bounce(m, speedMultiplier, d) == m
  {
  }

  class Character {
    var rect: Rect
    const kind: CharacterKind
    var x: int
    var y: int
    var xDirection: int
    var yDirection: int
    var xSpeed: int
    var ySpeed: int

    /** False exactly for the three decoy kinds. */
    predicate IsLuigi()
      ensures IsLuigi() <==> !(kind == Mario || kind == Wario || kind == Yoshi)
    {
      kind == Luigi
    }

    /** The box always sits on the position. */
    ghost predicate Valid()
      reads this
    {
      rect == Box(x, y)
    }

    function CurrentMotion(): Motion
      reads this
    {
      Motion(x, y, xDirection, yDirection, xSpeed, ySpeed)
    }

    constructor (x0: int, y0: int, k: CharacterKind)
      ensures Valid() && x == x0 && y == y0 && kind == k
      ensures IsLuigi() <==> k == Luigi
      ensures xDirection == 1 && yDirection == 1 && xSpeed == 1 && ySpeed == 1
    {
      rect := Box(x0, y0);
      kind := k;
      x, y := x0, y0;
      xDirection, yDirection := 1, 1;
      xSpeed, ySpeed := 1, 1;
    }

    method Update(speedMultiplier: nat, d: BounceDraws)
      requires ValidBounceDraws(d)
      modifies this
      ensures CurrentMotion() == Bounce(old(CurrentMotion()), speedMultiplier, d)
      ensures Valid() && InArena(x) && InArena(y)
    {
      x := x + xDirection * xSpeed;
      y := y + yDirection * ySpeed;

      if x > ArenaMax || x < 0 {
        xDirection := -xDirection;
        xSpeed := d.xSpeedFactor * (1 + speedMultiplier);
        x := if x < 0 then 0 else x;
        x := if x > ArenaMax then ArenaMax else x;
        if yDirection == 0 {
          yDirection := d.yDirectionDraw * (1 + speedMultiplier);
        }
      }
      if y > ArenaMax || y < 0 {
        yDirection := -yDirection;
        ySpeed := d.ySpeedFactor * (1 + speedMultiplier);
        y := if y < 0 then 0 else y;
        y := if y > ArenaMax then ArenaMax else y;
        if xDirection == 0 {
          xDirection := d.xDirectionDraw * (1 + speedMultiplier);
        }
      }

      rect := Box(x, y);
    }
  }
}

=== FILE: FindLuigiGame.dfy ===
/**
 * The game session of Find Luigi: score, lives, countdown, difficulty, the
 * current round of sprites, and the transitions a frame, a click, a clock
 * tick, a restart and the click debounce make on them.
 *
 * Timers are not modelled as timers: the one-second game clock is the step
 * ClockTick, and the 500 ms click debounce is the flag `armed`, set by
 * StartClickTimeout and cleared by DebounceExpired. The pointer position, the
 * mouse button and the restart key are inputs. Every random draw is an input
 * whose range is that of .NET's Random.Next (upper bound excluded).
 */
module Game {
  import opened ListShuffle
  import opened Characters

  datatype Option<T> = None | Some(value: T)

  // ----- difficulty -----

  datatype Difficulty = Easy | Medium | Hard | Ultra | Impossible

  function Rank(d: Difficulty): nat {
    match d
    case Easy => 0
    case Medium => 1
    case Hard => 2
    case Ultra => 3
    case Impossible => 4
  }

  function Previous(d: Difficulty): (p: Difficulty)
    requires d != Easy
    ensures Rank(p) + 1 == Rank(d)
  {
    match d
    case Medium => Easy
    case Hard => Medium
    case Ultra => Hard
    case Impossible => Ultra
  }

  /** The level a session is at after reaching `score` from zero. */
  function LevelFor(score: int): Difficulty {
    if score >= 50 then Impossible
    else if score >= 25 then Ultra
    else if score >= 10 then Hard
    else if score >= 5 then Medium
    else Easy
  }

  /** Difficulty never decreases as the score grows. */
  lemma LevelForMonotone(a: int, b: int)
    requires a <= b
    ensures Rank(LevelFor(a)) <= Rank(LevelFor(b))
  {
  }

  /** The scores at which the level moves up. */
  predicate Threshold(score: int) {
    score == 5 || score == 10 || score == 25 || score == 50
  }

  /**
   * The threshold test made after a target hit, with `newScore` the score
   * already incremented: only the scores 5, 10, 25 and 50 change the level,
   * and from the level of the previous score they move it up exactly one.
   */
  function Promote(newScore: int, d: Difficulty): (r: Difficulty)
    ensures !Threshold(newScore) ==> r == d
    ensures newScore >= 1 && d == LevelFor(newScore - 1) ==>
      && r == LevelFor(newScore)
      && (r != d <==> Threshold(newScore))
      && (r != d ==> r != Easy && Previous(r) == d)
  {
    if newScore == 5 then Medium
    else if newScore == 10 then Hard
    else if newScore == 25 then Ultra
    else if newScore == 50 then Impossible
    else d
  }

  datatype Multipliers = Multipliers(speed: nat, direction: nat, count: nat)

  /** The multipliers' values before any update. */
  const InitialMultipliers := Multipliers(0, 0, 1)

  /**
   * UpdateDifficultyMultipliers' switch: EASY sets all three; the other
   * levels set only some of them and keep the rest.
   */
  function ApplyLevel(d: Difficulty, m: Multipliers): (r: Multipliers)
    // every level sets the count to its row's value; EASY resets all three
    ensures r.count == Table(d).count
    ensures d == Easy ==> r == InitialMultipliers
    // the fields a level's case does not write keep their old values
    ensures d == Medium || d == Hard ==> r.speed == m.speed
    ensures d == Hard || d == Ultra || d == Impossible ==> r.direction == m.direction
    // the fields a level's case does write, besides the count
    ensures d == Medium ==> r.direction == 1
    ensures d == Ultra ==> r.speed == 2
    ensures d == Impossible ==> r.speed == 3
  {
    match d
    case Easy => Multipliers(0, 0, 1)
    case Medium => m.(count := 2, direction := 1)
    case Hard => m.(count := 3)
    case Ultra => m.(count := 2, speed := 2)
    case Impossible => m.(count := 3, speed := 3)
  }

  /** The multipliers a session holds at each level. */
  function Table(d: Difficulty): Multipliers {
    match d
    case Easy => Multipliers(0, 0, 1)
    case Medium => Multipliers(0, 1, 2)
    case Hard => Multipliers(0, 1, 3)
    case Ultra => Multipliers(2, 1, 2)
    case Impossible => Multipliers(3, 1, 3)
  }

  /**
   * The table is what UpdateDifficultyMultipliers produces when the levels are
   * reached from the initial values one at a time: EASY from the initial
   * values, every other level from the row of the level below it.
   */
  lemma TableBySteps(d: Difficulty)
    ensures d == Easy ==> ApplyLevel(d, InitialMultipliers) == Table(d)
    ensures d != Easy ==> ApplyLevel(d, Table(Previous(d))) == Table(d)
  {
  }

  /**
   * A target hit from a session whose level and multipliers match the old
   * score leaves them matching the new score.
   */
  lemma PromoteKeepsTable(newScore: int)
    requires newScore >= 1
    ensures var d := LevelFor(newScore - 1); var p := Promote(newScore, d);
      && p == LevelFor(newScore)
      && (if p != d then ApplyLevel(p, Table(d)) else Table(d)) == Table(p)
  {
  }

  // ----- round generation -----

  /**
   * Draws for one sprite: cells Next(1, 46) for x and y, directions
   * Next(-1, 2) and speed factors Next(1, 3).
   */
  datatype SpawnDraw = SpawnDraw(xCell: int, yCell: int, xDirection: int, yDirection: int, xSpeed: int, ySpeed: int)

  /** A decoy's draws, with its kind index Next(0, 3). */
  datatype DecoyDraw = DecoyDraw(spawn: SpawnDraw, kindIndex: int)

  /**
   * Everything GenerateRound draws: the population Next(75, 100), canMove
   * Next(0, 1 + direction multiplier), one DecoyDraw per decoy, the target's
   * draws, and the shuffle's draws.
   */
  datatype RoundDraws = RoundDraws(population: int, canMove: int, decoys: seq<DecoyDraw>, luigi: SpawnDraw, shuffle: seq<int>)

  predicate ValidSpawnDraw(d: SpawnDraw) {
    && 1 <= d.xCell <= 45 && 1 <= d.yCell <= 45
    && -1 <= d.xDirection <= 1 && -1 <= d.yDirection <= 1
    && 1 <= d.xSpeed <= 2 && 1 <= d.ySpeed <= 2
  }

  /** Every sprite's draws are in range. */
  predicate ValidSpawns(rd: RoundDraws) {
    && (forall i :: 0 <= i < |rd.decoys| ==>
          ValidSpawnDraw(rd.decoys[i].spawn) && 0 <= rd.decoys[i].kindIndex < 3)
    && ValidSpawnDraw(rd.luigi)
  }

  /** The draws of one GenerateRound call under multipliers m. */
  predicate ValidRound(rd: RoundDraws, m: Multipliers) {
    && 75 <= rd.population <= 99
    && 0 <= rd.canMove <= m.direction
    && |rd.decoys| == rd.population * m.count
    && ValidSpawns(rd)
    && ValidShuffleDraws(rd.population * m.count + 1, rd.shuffle)
  }

  /** The character kinds with LUIGI removed, indexed as the program's list. */
  function DecoyKind(index: int): (k: CharacterKind)
    requires 0 <= index < 3
    ensures k != Luigi
  {
    [Mario, Wario, Yoshi][index]
  }

  /** A direction drawn as Next(-1, 2) * canMove. */
  predicate SpawnDirection(v: int, canMove: int) {
    v == -canMove || v == 0 || v == canMove
  }

  /** Directions in {-canMove, 0, canMove} and speeds in {1+s, 2(1+s)}. */
  predicate SpawnVelocity(m: Motion, canMove: int, speedMultiplier: nat) {
    && SpawnDirection(m.xDirection, canMove) && SpawnDirection(m.yDirection, canMove)
    && BounceSpeed(m.xSpeed, speedMultiplier) && BounceSpeed(m.ySpeed, speedMultiplier)
  }

  function SpawnVelocityOf(d: SpawnDraw, x: int, y: int, canMove: int, speedMultiplier: nat): (m: Motion)
    requires ValidSpawnDraw(d)
    ensures m.x == x && m.y == y && SpawnVelocity(m, canMove, speedMultiplier)
  {
    Motion(x, y, d.xDirection * canMove, d.yDirection * canMove,
           d.xSpeed * (1 + speedMultiplier), d.ySpeed * (1 + speedMultiplier))
  }

  /**
   * A decoy as generated: on the 20-pixel grid in [20, 900], moved by +90 on
   * both axes when it lands with both coordinates below 150, so that no decoy
   * starts with both coordinates below 110.
   */
  function DecoyMotion(d: SpawnDraw, canMove: int, speedMultiplier: nat): (m: Motion)
    requires ValidSpawnDraw(d)
    ensures 20 <= m.x <= 900 && 20 <= m.y <= 900
    ensures !(m.x < 110 && m.y < 110)
    ensures SpawnVelocity(m, canMove, speedMultiplier)
  {
    var x, y := d.xCell * 20, d.yCell * 20;
    if x < 150 && y < 150 then SpawnVelocityOf(d, x + 90, y + 90, canMove, speedMultiplier)
    else SpawnVelocityOf(d, x, y, canMove, speedMultiplier)
  }

  /** The target as generated: on the grid, never moved. */
  function LuigiMotion(d: SpawnDraw, canMove: int, speedMultiplier: nat): (m: Motion)
    requires ValidSpawnDraw(d)
    ensures 20 <= m.x <= 900 && 20 <= m.y <= 900
    ensures m.x % 20 == 0 && m.y % 20 == 0
    ensures SpawnVelocity(m, canMove, speedMultiplier)
  {
    SpawnVelocityOf(d, d.xCell * 20, d.yCell * 20, canMove, speedMultiplier)
  }

  /** With canMove 0 (always so at EASY) a generated sprite never moves. */
  lemma StillRoundStaysPut(d: SpawnDraw, speedMultiplier: nat, b: BounceDraws, decoy: bool)
    requires ValidSpawnDraw(d) && ValidBounceDraws(b)
    ensures var m := if decoy then DecoyMotion(d, 0, speedMultiplier) else LuigiMotion(d, 0, speedMultiplier);
      Bounce(m, speedMultiplier, b) == m
  {
    var m := if decoy then DecoyMotion(d, 0, speedMultiplier) else LuigiMotion(d, 0, speedMultiplier);
    StillSpriteStaysPut(m, speedMultiplier, b);
  }

  /**
   * `built` is the list GenerateRound fills before shuffling: one decoy per
   * decoy draw, in draw order, then the LUIGI.
   */
  ghost predicate Spawned(built: seq<Character>, rd: RoundDraws, speedMultiplier: nat)
    requires ValidSpawns(rd)
    reads built
  {
    && |built| == |rd.decoys| + 1
    && (forall i :: 0 <= i < |rd.decoys| ==>
          && built[i].kind == DecoyKind(rd.decoys[i].kindIndex)
          && built[i].CurrentMotion() == DecoyMotion(rd.decoys[i].spawn, rd.canMove, speedMultiplier))
    && built[|rd.decoys|].IsLuigi()
    && built[|rd.decoys|].CurrentMotion() == LuigiMotion(rd.luigi, rd.canMove, speedMultiplier)
  }

  // ----- hit testing -----

  /** The sprite's box holds the point; for a placed sprite, the 64x64 square at its position. */
  predicate Hit(c: Character, px: int, py: int)
    reads c
    ensures c.Valid() ==> (Hit(c, px, py) <==> c.x <= px < c.x + Size && c.y <= py < c.y + Size)
  {
    c.rect.Contains(px, py)
  }

  ghost predicate NoHit(s: seq<Character>, px: int, py: int)
    reads s
  {
    forall i :: 0 <= i < |s| ==> !Hit(s[i], px, py)
  }

  ghost predicate LuigiHit(s: seq<Character>, px: int, py: int)
    reads s
  {
    exists i :: 0 <= i < |s| && s[i].IsLuigi() && Hit(s[i], px, py)
  }

  /** s[i] is the last sprite in draw order (the topmost) whose box holds the point. */
  ghost predicate TopmostHit(s: seq<Character>, px: int, py: int, i: int)
    reads s
  {
    0 <= i < |s| && Hit(s[i], px, py) && forall j :: i < j < |s| ==> !Hit(s[j], px, py)
  }

  /**
   * The click's choice: the candidates are collected in reverse draw order; a
   * LUIGI among them wins, otherwise the first candidate (the topmost) does.
   */
  method SelectClicked(s: seq<Character>, px: int, py: int) returns (clicked: Option<Character>)
    ensures clicked.None? <==> NoHit(s, px, py)
    ensures clicked.Some? ==> clicked.value in s && Hit(clicked.value, px, py)
    ensures LuigiHit(s, px, py) ==> clicked.Some? && clicked.value.IsLuigi()
    ensures clicked.Some? && !LuigiHit(s, px, py) ==>
      exists i :: TopmostHit(s, px, py, i) && s[i] == clicked.value
  {
    var reversed := Reverse(s);
    var eligible: seq<Character> := [];
    var i := 0;
    while i < |reversed|
      invariant 0 <= i <= |reversed|
      invariant forall c :: c in eligible <==> c in reversed[..i] && Hit(c, px, py)
      invariant eligible == [] ==> forall j :: 0 <= j < i ==> !Hit(reversed[j], px, py)
      invariant eligible != [] ==> exists j :: 0 <= j < i && reversed[j] == eligible[0] && Hit(reversed[j], px, py)
                                     && forall k :: 0 <= k < j ==> !Hit(reversed[k], px, py)
    {
      if Hit(reversed[i], px, py) {
        eligible := eligible + [reversed[i]];
      }
      i := i + 1;
    }
    assert reversed[..i] == reversed;
    // the candidates are exactly the sprites of s whose box holds the point
    forall c ensures c in reversed <==> c in s {
      if c in s {
        var k :| 0 <= k < |s| && s[k] == c;
        assert reversed[|s| - 1 - k] == c;
      }
    }
    if eligible == [] {
      forall m | 0 <= m < |s| ensures !Hit(s[m], px, py) {
        assert s[m] == reversed[|s| - 1 - m];
      }
    } else {
      assert eligible[0] in eligible;
    }

    clicked := None;
    var e := 0;
    while e < |eligible|
      invariant 0 <= e <= |eligible|
      invariant clicked.Some? ==> clicked.value.IsLuigi() && clicked.value in eligible
      invariant clicked.None? ==> forall k :: 0 <= k < e ==> !eligible[k].IsLuigi()
    {
      if eligible[e].IsLuigi() {
        clicked := Some(eligible[e]);
      }
      e := e + 1;
    }

    if LuigiHit(s, px, py) {
      var m :| 0 <= m < |s| && s[m].IsLuigi() && Hit(s[m], px, py);
      assert s[m] in eligible;
    }

    if clicked.None? && |eligible| > 0 {
      clicked := Some(eligible[0]);
    }

    if clicked.Some? && !LuigiHit(s, px, py) {
      var j :| 0 <= j < |reversed| && reversed[j] == eligible[0] && Hit(reversed[j], px, py)
               && forall k :: 0 <= k < j ==> !Hit(reversed[k], px, py);
      var top := |s| - 1 - j;
      forall m | top < m < |s| ensures !Hit(s[m], px, py) {
        assert s[m] == reversed[|s| - 1 - m];
      }
      assert TopmostHit(s, px, py, top) && s[top] == clicked.value;
    }
  }

  // ----- List<T>.Remove -----

  /** List.Remove: the first occurrence of x is taken out; a list without x is kept. */
  function RemoveFirst<T(==)>(s: seq<T>, x: T): (r: seq<T>)
    ensures x !in s ==> r == s
    ensures x in s ==> |r| == |s| - 1
  {
    if s == [] then []
    else if s[0] == x then s[1..]
    else [s[0]] + RemoveFirst(s[1..], x)
  }

  /** When s[i] is the first occurrence of its value, List.Remove takes out index i. */
  lemma {:induction false} RemoveFirstAt<T>(s: seq<T>, i: int)
    requires 0 <= i < |s| && s[i] !in s[..i]
    ensures RemoveFirst(s, s[i]) == s[..i] + s[i + 1..]
  {
    if i > 0 {
      assert s[0] in s[..i];
      assert s[1..][..i - 1] == s[1..i];
      RemoveFirstAt(s[1..], i - 1);
      assert s[..i] == [s[0]] + s[1..i];
      assert s[i + 1..] == s[1..][i..];
    }
  }

  /** Removing one index keeps a list free of repeats. */
  lemma RemoveAtDistinct<T>(s: seq<T>, i: int)
    requires Distinct(s) && 0 <= i < |s|
    ensures Distinct(s[..i] + s[i + 1..])
  {
    var r := s[..i] + s[i + 1..];
    forall a, b | 0 <= a < b < |r| ensures r[a] != r[b] {
      var a' := if a < i then a else a + 1;
      var b' := if b < i then b else b + 1;
      assert r[a] == s[a'] && r[b] == s[b'];
    }
  }

  /** Removing index i of a list without repeats keeps exactly the other elements. */
  lemma RemoveAtMembers<T>(s: seq<T>, i: int)
    requires Distinct(s) && 0 <= i < |s|
    ensures forall c :: c in s[..i] + s[i + 1..] <==> c in s && c != s[i]
  {
    var r := s[..i] + s[i + 1..];
    forall c ensures c in r <==> c in s && c != s[i] {
      if c in r {
        var m :| 0 <= m < |r| && r[m] == c;
        var m' := if m < i then m else m + 1;
        assert s[m'] == c && m' != i;
      }
      if c in s && c != s[i] {
        var m :| 0 <= m < |s| && s[m] == c;
        assert r[if m < i then m else m - 1] == c;
      }
    }
  }

  /** Two lists with the same multiset hold the same elements. */
  lemma SameElements<T>(a: seq<T>, b: seq<T>)
    requires multiset(a) == multiset(b)
    ensures forall c :: c in a <==> c in b
  {
    forall c ensures c in a <==> c in b {
      assert c in a <==> c in multiset(a);
      assert c in b <==> c in multiset(b);
    }
  }

  /** The LUIGI sprites of a list. */
  ghost function Luigis(s: seq<Character>): set<Character> {
    set c | c in s && c.IsLuigi()
  }

  /** A sprite whose box sits on its position, inside the arena. */
  ghost predicate Placed(c: Character)
    reads c
  {
    c.Valid() && InArena(c.x) && InArena(c.y)
  }

  /**
   * A round's invariant: no sprite twice, `luigi` is in the list and is its
   * only LUIGI, and every sprite is placed.
   */
  ghost predicate GoodRound(s: seq<Character>, luigi: Character)
    reads s
  {
    && Distinct(s)
    && luigi in s && luigi.IsLuigi()
    && (forall i :: 0 <= i < |s| && s[i].IsLuigi() ==> s[i] == luigi)
    && (forall i :: 0 <= i < |s| ==> Placed(s[i]))
  }

  /** A good round holds exactly one LUIGI. */
  lemma GoodRoundOneLuigi(s: seq<Character>, luigi: Character)
    requires GoodRound(s, luigi)
    ensures Luigis(s) == {luigi} && |Luigis(s)| == 1
  {
    forall c | c in Luigis(s) ensures c == luigi {
      var k :| 0 <= k < |s| && s[k] == c;
    }
  }

  /** Removing a decoy from a good round, by List.Remove, leaves a good round. */
  lemma RemovedDecoyKeepsRound(s: seq<Character>, luigi: Character, i: int)
    requires GoodRound(s, luigi) && 0 <= i < |s| && !s[i].IsLuigi()
    ensures RemoveFirst(s, s[i]) == s[..i] + s[i + 1..]
    ensures GoodRound(s[..i] + s[i + 1..], luigi)
  {
    assert s[i] !in s[..i];
    RemoveFirstAt(s, i);
    RemoveAtDistinct(s, i);
    RemoveAtMembers(s, i);
    var r := s[..i] + s[i + 1..];
    forall m | 0 <= m < |r| ensures Placed(r[m]) && (r[m].IsLuigi() ==> r[m] == luigi) {
      assert r[m] in s;
      var k :| 0 <= k < |s| && s[k] == r[m];
    }
  }

  /** A permutation of a good round is a good round. */
  lemma PermutedRound(a: seq<Character>, b: seq<Character>, luigi: Character)
    requires multiset(a) == multiset(b) && GoodRound(a, luigi)
    ensures GoodRound(b, luigi)
  {
    PermutationKeepsDistinct(a, b);
    SameElements(a, b);
    forall m | 0 <= m < |b| ensures Placed(b[m]) && (b[m].IsLuigi() ==> b[m] == luigi) {
      assert b[m] in a;
      var k :| 0 <= k < |a| && a[k] == b[m];
    }
  }

  /** A shuffled good round is a good round holding the same sprites. */
  lemma ShuffledRound(built: seq<Character>, luigi: Character, draws: seq<int>)
    requires ValidShuffleDraws(|built|, draws) && GoodRound(built, luigi)
    ensures GoodRound(Shuffled(built, draws), luigi)
    ensures forall c :: c in Shuffled(built, draws) <==> c in built
  {
    var shuffled := Shuffled(built, draws);
    ShufflePermutes(built, draws);
    PermutedRound(built, shuffled, luigi);
    SameElements(built, shuffled);
  }

  function Max(a: int, b: int): int {
    if a >= b then a else b
  }

  // ----- the session -----

  class FindLuigiGame {
    var characters: seq<Character>
    var difficulty: Difficulty
    var score: int
    var lives: int
    var time: int
    var highScore: int
    var gameOver: bool
    var speedMultiplier: nat
    var directionMultiplier: nat
    var countMultiplier: nat
    /** The click debounce timer is running. */
    var armed: bool
    /** The round's LUIGI, a proof device: the program keeps no such field. */
    ghost var luigi: Character?

    function CurrentMultipliers(): Multipliers
      reads this`speedMultiplier, this`directionMultiplier, this`countMultiplier
    {
      Multipliers(speedMultiplier, directionMultiplier, countMultiplier)
    }

    /**
     * The counters' invariant: the difficulty is the one the score has reached
     * and the multipliers are that level's table row; time never negative;
     * no lives left only once the game is over.
     */
    ghost predicate Counters()
      reads this`score, this`highScore, this`time, this`lives, this`gameOver, this`difficulty
      reads this`speedMultiplier, this`directionMultiplier, this`countMultiplier
    {
      && 0 <= score && 0 <= highScore && 0 <= time && 0 <= lives <= 5
      && (lives == 0 ==> gameOver)
      && difficulty == LevelFor(score)
      && CurrentMultipliers() == Table(difficulty)
    }

    /**
     * The round's invariant: no sprite twice, exactly one LUIGI, every box on
     * its sprite, every sprite inside the arena.
     */
    ghost predicate RoundValid()
      reads this`characters, this`luigi, characters
    {
      luigi != null && GoodRound(characters, luigi)
    }

    ghost predicate Valid()
      reads this`score, this`highScore, this`time, this`lives, this`gameOver, this`difficulty
      reads this`speedMultiplier, this`directionMultiplier, this`countMultiplier
      reads this`characters, this`luigi, characters
    {
      Counters() && RoundValid()
    }

    /** The session as the game object's field initialisers and Initialize leave it. */
    constructor (rd: RoundDraws)
      requires ValidRound(rd, Table(Easy))
      ensures Valid()
      ensures score == 0 && lives == 5 && time == 30 && highScore == 0
      ensures difficulty == Easy && !gameOver && !armed
      ensures |characters| == rd.population + 1
      ensures forall i :: 0 <= i < |characters| ==> fresh(characters[i])
      ensures exists built :: Spawned(built, rd, speedMultiplier) && characters == Shuffled(built, rd.shuffle)
    {
      characters := [];
      difficulty := Easy;
      score, lives, time, highScore := 0, 5, 30, 0;
      gameOver := false;
      speedMultiplier, directionMultiplier, countMultiplier := 0, 0, 1;
      armed := false;
      new;
      ghost var built := GenerateRound(rd);
    }

    /** One decoy of the generation loop: placed on the grid, moved out of the top-left corner. */
    method NewDecoy(d: DecoyDraw, canMove: int) returns (character: Character)
      requires ValidSpawnDraw(d.spawn) && 0 <= d.kindIndex < 3
      ensures fresh(character) && Placed(character)
      ensures character.kind == DecoyKind(d.kindIndex)
      ensures character.CurrentMotion() == DecoyMotion(d.spawn, canMove, speedMultiplier)
    {
      var x := d.spawn.xCell * 20;
      var y := d.spawn.yCell * 20;
      var characterType := d.kindIndex;
      if x < 150 && y < 150 {
        x := x + 90;
        y := y + 90;
      }
      character := new Character(x, y, DecoyKind(characterType));
      character.xDirection := d.spawn.xDirection * canMove;
      character.yDirection := d.spawn.yDirection * canMove;
      character.xSpeed := d.spawn.xSpeed * (1 + speedMultiplier);
      character.ySpeed := d.spawn.ySpeed * (1 + speedMultiplier);
    }

    /** The round's one LUIGI, placed on the grid without the corner shift. */
    method NewLuigi(d: SpawnDraw, canMove: int) returns (luigi: Character)
      requires ValidSpawnDraw(d)
      ensures fresh(luigi) && Placed(luigi) && luigi.IsLuigi()
      ensures luigi.CurrentMotion() == LuigiMotion(d, canMove, speedMultiplier)
    {
      luigi := new Character(d.xCell * 20, d.yCell * 20, Luigi);
      luigi.xDirection := d.xDirection * canMove;
      luigi.yDirection := d.yDirection * canMove;
      luigi.xSpeed := d.xSpeed * (1 + speedMultiplier);
      luigi.ySpeed := d.ySpeed * (1 + speedMultiplier);
    }

    /**
     * A fresh round: population Next(75, 100) times the count multiplier
     * decoys, then one LUIGI, shuffled. `built` is the list before the shuffle.
     */
    method GenerateRound(rd: RoundDraws) returns (ghost built: seq<Character>)
      requires Counters()
      requires ValidRound(rd, CurrentMultipliers())
      modifies this`characters, this`luigi
      ensures Valid()
      ensures |characters| == rd.population * countMultiplier + 1
      ensures forall i :: 0 <= i < |characters| ==> fresh(characters[i])
      ensures Spawned(built, rd, speedMultiplier)
      ensures characters == Shuffled(built, rd.shuffle)
    {
      var list := BuildRound(rd);
      built := list;
      characters := list;
      luigi := list[|list| - 1];
      ShuffleCharacters(rd.shuffle);
      forall m | 0 <= m < |characters| ensures fresh(characters[m]) {
        assert characters[m] in built;
      }
    }

    /** GenerateRound up to the shuffle: the decoy loop, then the LUIGI appended. */
    method BuildRound(rd: RoundDraws) returns (built: seq<Character>)
      requires ValidSpawns(rd)
      ensures Spawned(built, rd, speedMultiplier)
      ensures forall j :: 0 <= j < |built| ==> fresh(built[j])
      ensures GoodRound(built, built[|built| - 1])
    {
      built := [];
      var canMove := rd.canMove;
      var i := 0;
      while i < |rd.decoys|
        invariant 0 <= i <= |rd.decoys| && |built| == i
        invariant Distinct(built)
        invariant forall j :: 0 <= j < i ==> fresh(built[j]) && Placed(built[j])
        invariant forall j :: 0 <= j < i ==> built[j].kind == DecoyKind(rd.decoys[j].kindIndex)
        invariant forall j :: 0 <= j < i ==>
          built[j].CurrentMotion() == DecoyMotion(rd.decoys[j].spawn, canMove, speedMultiplier)
      {
        var character := NewDecoy(rd.decoys[i], canMove);
        built := built + [character];
        i := i + 1;
      }
      var target := NewLuigi(rd.luigi, canMove);
      built := built + [target];
    }

    /** _characters.Shuffle(): the list is shuffled in place through an array. */
    method ShuffleCharacters(draws: seq<int>)
      requires RoundValid() && ValidShuffleDraws(|characters|, draws)
      modifies this`characters
      ensures characters == Shuffled(old(characters), draws)
      ensures RoundValid()
      ensures forall c :: c in characters <==> c in old(characters)
    {
      var list := characters;
      var a := new Character[|list|](j requires 0 <= j < |list| => list[j]);
      assert a[..] == list;
      Shuffle(a, draws);
      characters := a[..];
      ShuffledRound(list, luigi, draws);
    }

    /** UpdateDifficultyMultipliers: the switch on the current difficulty. */
    method UpdateDifficultyMultipliers()
      modifies this`speedMultiplier, this`directionMultiplier, this`countMultiplier
      ensures CurrentMultipliers() == ApplyLevel(difficulty, old(CurrentMultipliers()))
    {
      match difficulty {
        case Easy =>
          speedMultiplier := 0;
          directionMultiplier := 0;
          countMultiplier := 1;
        case Medium =>
          countMultiplier := 2;
          directionMultiplier := 1;
        case Hard =>
          countMultiplier := 3;
        case Ultra =>
          countMultiplier := 2;
          speedMultiplier := 2;
        case Impossible =>
          countMultiplier := 3;
          speedMultiplier := 3;
      }
    }

    /** StartClickTimeout: the debounce starts; clicks are ignored until it expires. */
    method StartClickTimeout()
      modifies this`armed
      ensures armed
    {
      armed := true;
    }

    /** The debounce timer's elapsed event: clicks are accepted again. */
    method DebounceExpired()
      modifies this`armed
      ensures !armed
    {
      armed := false;
    }

    /**
     * GameTimerElapsed, once per second: the countdown drops by one while it is
     * positive and the game runs; otherwise the game is over.
     */
    method ClockTick()
      requires Valid()
      modifies this`time, this`gameOver
      ensures Valid()
      ensures old(time) > 0 && !old(gameOver) ==> time == old(time) - 1 && gameOver == old(gameOver)
      ensures !(old(time) > 0 && !old(gameOver)) ==> time == old(time) && gameOver
      ensures time >= 0
    {
      if time > 0 && !gameOver {
        time := time - 1;
      } else {
        gameOver := true;
      }
    }

    /** The per-frame motion loop: every sprite takes one Update unless the game is over. */
    method MoveCharacters(draws: seq<BounceDraws>)
      requires Valid()
      requires |draws| == |characters| && forall i :: 0 <= i < |draws| ==> ValidBounceDraws(draws[i])
      modifies characters
      ensures Valid()
      ensures forall i :: 0 <= i < |characters| ==>
        characters[i].CurrentMotion() ==
          if gameOver then old(characters[i].CurrentMotion())
          else Bounce(old(characters[i].CurrentMotion()), speedMultiplier, draws[i])
    {
      var i := 0;
      while i < |characters|
        invariant 0 <= i <= |characters|
        invariant forall j :: 0 <= j < |characters| ==>
          Placed(characters[j])
        invariant forall j :: 0 <= j < i ==>
          characters[j].CurrentMotion() ==
            if gameOver then old(characters[j].CurrentMotion())
            else Bounce(old(characters[j].CurrentMotion()), speedMultiplier, draws[j])
        invariant forall j :: i <= j < |characters| ==>
          characters[j].CurrentMotion() == old(characters[j].CurrentMotion())
      {
        if !gameOver {
          assert forall j :: 0 <= j < |characters| && j != i ==> characters[j] != characters[i];
          characters[i].Update(speedMultiplier, draws[i]);
        }

        i := i + 1;
      }
    }

    /**
     * A left click at (px, py). Ignored while the debounce is armed or the game
     * is over, and when no box holds the point. Otherwise the selected sprite
     * is resolved by HitLuigi or HitDecoy.
     */
    method Click(px: int, py: int, rd: RoundDraws) returns (ghost built: seq<Character>, ghost top: int)
      requires Valid()
      requires ValidRound(rd, Table(LevelFor(score + 1)))
      modifies this
      ensures Valid()
      ensures highScore == old(highScore)
      ensures Rank(old(difficulty)) <= Rank(difficulty)
      ensures forall i :: 0 <= i < |characters| ==> characters[i] in old(characters) || fresh(characters[i])
      ensures old(armed) || old(gameOver) || old(NoHit(characters, px, py)) ==> unchanged(this)
      ensures !old(armed) && !old(gameOver) && old(LuigiHit(characters, px, py)) ==>
        && score == old(score) + 1 && time == old(time) + 5 && lives == old(lives)
        && armed && !gameOver
        && (difficulty != old(difficulty) <==> Threshold(score))
        && |characters| == rd.population * countMultiplier + 1
        && (forall i :: 0 <= i < |characters| ==> fresh(characters[i]))
        && Spawned(built, rd, speedMultiplier) && characters == Shuffled(built, rd.shuffle)
      ensures !old(armed) && !old(gameOver) && !old(NoHit(characters, px, py)) && !old(LuigiHit(characters, px, py)) ==>
        && old(TopmostHit(characters, px, py, top)) && characters == old(characters[..top] + characters[top + 1..])
        && lives == old(lives) - 1 && armed == (lives > 0) && gameOver == (lives == 0)
        && score == old(score) && time == old(time) && difficulty == old(difficulty)
    {
      built, top := [], 0;
      if armed || gameOver {
        return;
      }
      var clicked := SelectClicked(characters, px, py);

      if clicked.Some? && clicked.value.IsLuigi() {
        built := HitLuigi(rd);
      } else if clicked.Some? {
        top :| TopmostHit(characters, px, py, top) && characters[top] == clicked.value;
        HitDecoy(clicked.value, top);
      }
    }

    /**
     * The target was clicked: the score goes up by one, the difficulty moves up
     * at the scores 5, 10, 25 and 50 (and only then are the multipliers
     * recomputed), a new round is generated, the debounce is armed and five
     * seconds are added.
     */
    method HitLuigi(rd: RoundDraws) returns (ghost built: seq<Character>)
      requires Valid() && !gameOver
      requires ValidRound(rd, Table(LevelFor(score + 1)))
      modifies this
      ensures Valid()
      ensures score == old(score) + 1 && time == old(time) + 5 && lives == old(lives)
      ensures armed && !gameOver && highScore == old(highScore)
      ensures Rank(old(difficulty)) <= Rank(difficulty)
      ensures difficulty != old(difficulty) <==> Threshold(score)
      ensures |characters| == rd.population * countMultiplier + 1
      ensures forall i :: 0 <= i < |characters| ==> fresh(characters[i])
      ensures Spawned(built, rd, speedMultiplier) && characters == Shuffled(built, rd.shuffle)
    {
      ScorePoint();
      // the program generates the round first; the round reads neither of these fields
      StartClickTimeout();
      time := time + 5;
      built := GenerateRound(rd);
    }

    /**
     * The score goes up by one; the threshold test then moves the level up at
     * the scores 5, 10, 25 and 50, and only a change of level recomputes the
     * multipliers.
     */
    method ScorePoint()
      requires Counters()
      modifies this`score, this`difficulty, this`speedMultiplier, this`directionMultiplier, this`countMultiplier
      ensures Counters()
      ensures score == old(score) + 1
      ensures difficulty == Promote(score, old(difficulty))
      ensures CurrentMultipliers() ==
        if difficulty != old(difficulty) then ApplyLevel(difficulty, old(CurrentMultipliers()))
        else old(CurrentMultipliers())
    {
      score := score + 1;
      PromoteKeepsTable(score);
      var previous := difficulty;

      if score == 5 {
        difficulty := Medium;
      } else if score == 10 {
        difficulty := Hard;
      } else if score == 25 {
        difficulty := Ultra;
      } else if score == 50 {
        difficulty := Impossible;
      }

      if previous != difficulty {
        UpdateDifficultyMultipliers();
      }
    }

    /**
     * A decoy was clicked: List.Remove takes it out of the round, a life is
     * lost, and the debounce is armed unless that was the last life, which
     * ends the game.
     */
    method HitDecoy(clicked: Character, ghost i: int)
      requires Valid() && !gameOver
      requires 0 <= i < |characters| && characters[i] == clicked && !clicked.IsLuigi()
      modifies this
      ensures Valid()
      ensures characters == old(characters[..i] + characters[i + 1..])
      ensures lives == old(lives) - 1 && armed == (if lives > 0 then true else old(armed))
      ensures gameOver == (lives == 0)
      ensures score == old(score) && time == old(time) && highScore == old(highScore)
      ensures difficulty == old(difficulty) && CurrentMultipliers() == old(CurrentMultipliers())
    {
      RemoveDecoy(clicked, i);
      LoseLife();
    }

    /** List.Remove: the first occurrence of the clicked decoy leaves the round. */
    method RemoveDecoy(clicked: Character, ghost i: int)
      requires RoundValid()
      requires 0 <= i < |characters| && characters[i] == clicked && !clicked.IsLuigi()
      modifies this`characters
      ensures RoundValid()
      ensures characters == old(characters[..i] + characters[i + 1..])
    {
      RemovedDecoyKeepsRound(characters, luigi, i);
      characters := RemoveFirst(characters, clicked);
    }

    /** One life fewer; the debounce is armed unless that was the last life, which ends the game. */
    method LoseLife()
      requires Counters() && !gameOver
      modifies this`lives, this`armed, this`gameOver
      ensures Counters()
      ensures lives == old(lives) - 1 && armed == (if lives > 0 then true else old(armed))
      ensures gameOver == (lives == 0)
    {
      lives := lives - 1;

      if lives > 0 {
        StartClickTimeout();
      } else {
        gameOver := true;
      }
    }

    /** While the game is over the high score takes the larger of itself and the score. */
    method RecordHighScore()
      requires Valid()
      modifies this`highScore
      ensures Valid()
      ensures highScore == if gameOver then Max(score, old(highScore)) else old(highScore)
      ensures gameOver ==> highScore >= score
    {
      if gameOver {
        highScore := Max(score, highScore);
      }
    }

    /** The R key: when the game is over, a new session at EASY with a new round. */
    method Restart(rd: RoundDraws) returns (ghost built: seq<Character>)
      requires Valid()
      requires ValidRound(rd, Table(Easy))
      modifies this
      ensures Valid()
      ensures !old(gameOver) ==> unchanged(this)
      ensures forall i :: 0 <= i < |characters| ==> characters[i] in old(characters) || fresh(characters[i])
      ensures old(gameOver) ==>
        && score == 0 && time == 30 && lives == 5 && !gameOver
        && difficulty == Easy && CurrentMultipliers() == Multipliers(0, 0, 1)
        && highScore == old(highScore) && armed == old(armed)
        && |characters| == rd.population + 1
        && (forall i :: 0 <= i < |characters| ==> fresh(characters[i]))
        && Spawned(built, rd, speedMultiplier) && characters == Shuffled(built, rd.shuffle)
    {
      built := [];
      if gameOver {
        ResetSession();
        built := GenerateRound(rd);
      }
    }

    /** The counters Restart resets, then UpdateDifficultyMultipliers at EASY. */
    method ResetSession()
      requires Counters()
      modifies this`score, this`time, this`lives, this`gameOver, this`difficulty
      modifies this`speedMultiplier, this`directionMultiplier, this`countMultiplier
      ensures Counters()
      ensures score == 0 && time == 30 && lives == 5 && !gameOver
      ensures difficulty == Easy && CurrentMultipliers() == InitialMultipliers
    {
      score := 0;
      time := 30;
      lives := 5;
      gameOver := false;
      difficulty := Easy;

      UpdateDifficultyMultipliers();
    }

    /**
     * One frame of the game loop: motion, then the click if the button is down,
     * then the high score, then the restart key.
     */
    method Frame(moveDraws: seq<BounceDraws>, pressed: bool, px: int, py: int, clickRound: RoundDraws,
                 restartDown: bool, restartRound: RoundDraws)
      requires Valid()
      requires |moveDraws| == |characters| && forall i :: 0 <= i < |moveDraws| ==> ValidBounceDraws(moveDraws[i])
      requires ValidRound(clickRound, Table(LevelFor(score + 1)))
      requires ValidRound(restartRound, Table(Easy))
      modifies this, characters
      ensures Valid()
      ensures gameOver ==> highScore >= score
      ensures highScore >= old(highScore)
      // every sprite of the new list was already in the session or is a new one
      ensures forall i :: 0 <= i < |characters| ==> characters[i] in old(characters) || fresh(characters[i])
      // while over and with the R key: the high score is recorded, then a new EASY session starts
      ensures old(gameOver) && restartDown ==>
        && highScore == Max(old(score), old(highScore))
        && score == 0 && time == 30 && lives == 5 && !gameOver && armed == old(armed)
        && difficulty == Easy && CurrentMultipliers() == InitialMultipliers
        && |characters| == restartRound.population + 1
        && forall i :: 0 <= i < |characters| ==> fresh(characters[i])
      // while over and without the R key: nothing moves and no click is processed
      ensures old(gameOver) && !restartDown ==>
        && characters == old(characters) && score == old(score) && lives == old(lives)
        && time == old(time) && gameOver && armed == old(armed) && difficulty == old(difficulty)
        && forall i :: 0 <= i < |characters| ==> characters[i].CurrentMotion() == old(characters[i].CurrentMotion())
      // a running frame without a click or the R key: one bounce per sprite, counters kept
      ensures !old(gameOver) && !pressed && !restartDown ==>
        && characters == old(characters) && score == old(score) && lives == old(lives) && time == old(time)
        && forall i :: 0 <= i < |characters| ==>
             characters[i].CurrentMotion() == Bounce(old(characters[i].CurrentMotion()), old(speedMultiplier), moveDraws[i])
    {
      MoveCharacters(moveDraws);
      HandleInput(pressed, px, py, clickRound, restartDown, restartRound);
    }

    /** The input part of a frame, after the motion: the click, the high score, the restart key. */
    method HandleInput(pressed: bool, px: int, py: int, clickRound: RoundDraws,
                       restartDown: bool, restartRound: RoundDraws)
      requires Valid()
      requires ValidRound(clickRound, Table(LevelFor(score + 1)))
      requires ValidRound(restartRound, Table(Easy))
      modifies this
      ensures Valid()
      ensures gameOver ==> highScore >= score
      ensures highScore >= old(highScore)
      ensures forall i :: 0 <= i < |characters| ==> characters[i] in old(characters) || fresh(characters[i])
      ensures old(gameOver) && restartDown ==>
        && highScore == Max(old(score), old(highScore))
        && score == 0 && time == 30 && lives == 5 && !gameOver && armed == old(armed)
        && difficulty == Easy && CurrentMultipliers() == InitialMultipliers
        && |characters| == restartRound.population + 1
        && forall i :: 0 <= i < |characters| ==> fresh(characters[i])
      ensures old(gameOver) && !restartDown ==>
        && characters == old(characters) && score == old(score) && lives == old(lives)
        && time == old(time) && gameOver && armed == old(armed) && difficulty == old(difficulty)
      ensures !old(gameOver) && !pressed && !restartDown ==>
        && characters == old(characters) && score == old(score) && lives == old(lives) && time == old(time)
    {
      if pressed {
        ghost var clickBuilt, clickTop := Click(px, py, clickRound);
      }
      RecordHighScore();
      if restartDown {
        ghost var restartBuilt := Restart(restartRound);
      }
    }
  }
}

=== FILE: ListShuffle.dfy ===
/**
 * The two list helpers of the game: an in-place Fisher-Yates shuffle and a
 * reversed view of a sequence.
 *
 * The shuffle's random generator is not modelled. Its draws are passed in, in
 * the order the loop asks for them: draw j is taken in the j-th iteration, when
 * the loop index has just been decremented to n = Count - 1 - j, and is an
 * index k with 0 <= k <= n (Random.Next(n + 1) excludes its bound).
 */
module ListShuffle {

  /** No element occurs twice. */
  ghost predicate Distinct<T>(s: seq<T>) {
    forall i, j :: 0 <= i < j < |s| ==> s[i] != s[j]
  }

  /** GetReverse: the input's elements, last first. */
  function Reverse<T>(s: seq<T>): (r: seq<T>)
    ensures |r| == |s|
    ensures forall i :: 0 <= i < |s| ==> r[i] == s[|s| - 1 - i]
  {
    if s == [] then [] else Reverse(s[1..]) + [s[0]]
  }

  /** Reversing twice gives the input back. */
  lemma ReverseReverse<T>(s: seq<T>)
    ensures Reverse(Reverse(s)) == s
  {
  }

  /** Reversing keeps every element with its multiplicity. */
  lemma {:induction false} ReversePermutes<T>(s: seq<T>)
    ensures multiset(Reverse(s)) == multiset(s)
  {
    if s != [] {
      ReversePermutes(s[1..]);
      assert s == [s[0]] + s[1..];
    }
  }

  /** The number of draws the loop takes on a list of `count` elements, each in range. */
  predicate ValidShuffleDraws(count: nat, draws: seq<int>) {
    && |draws| == (if count > 1 then count - 1 else 0)
    && forall j :: 0 <= j < |draws| ==> 0 <= draws[j] <= count - 1 - j
  }

  /** One loop iteration: exchange positions k and n. */
  function Swap<T>(s: seq<T>, k: nat, n: nat): (r: seq<T>)
    requires k <= n < |s|
    ensures |r| == |s| && r[k] == s[n] && r[n] == s[k]
    ensures forall p :: 0 <= p < |s| && p != k && p != n ==> r[p] == s[p]
  {
    seq(|s|, p requires 0 <= p < |s| => if p == k then s[n] else if p == n then s[k] else s[p])
  }

  /** The list after the first `j` iterations of the loop. */
  function Steps<T>(s: seq<T>, draws: seq<int>, j: nat): (r: seq<T>)
    requires ValidShuffleDraws(|s|, draws) && j <= |draws|
    ensures |r| == |s|
  {
    if j == 0 then s
    else Swap(Steps(s, draws, j - 1), draws[j - 1], |s| - j)
  }

  /** The list after the whole loop. */
  function Shuffled<T>(s: seq<T>, draws: seq<int>): (r: seq<T>)
    requires ValidShuffleDraws(|s|, draws)
    ensures |r| == |s|
  {
    Steps(s, draws, |draws|)
  }

  lemma SwapPermutes<T>(s: seq<T>, k: nat, n: nat)
    requires k <= n < |s|
    ensures multiset(Swap(s, k, n)) == multiset(s)
  {
    assert Swap(s, k, n) == s[k := s[n]][n := s[k]];
  }

  /** One iteration only permutes the list. */
  lemma StepPermutes<T>(s: seq<T>, draws: seq<int>, j: nat)
    requires ValidShuffleDraws(|s|, draws) && 0 < j <= |draws|
    ensures multiset(Steps(s, draws, j)) == multiset(Steps(s, draws, j - 1))
  {
    SwapPermutes(Steps(s, draws, j - 1), draws[j - 1], |s| - j);
  }

  /** Every prefix of the loop only permutes the list. */
  lemma {:induction false} StepsPermute<T>(s: seq<T>, draws: seq<int>, j: nat)
    requires ValidShuffleDraws(|s|, draws) && j <= |draws|
    ensures multiset(Steps(s, draws, j)) == multiset(s)
  {
    if j > 0 {
      StepPermutes(s, draws, j);
      StepsPermute(s, draws, j - 1);
    }
  }

  /** The shuffle is a permutation of its input. */
  lemma ShufflePermutes<T>(s: seq<T>, draws: seq<int>)
    requires ValidShuffleDraws(|s|, draws)
    ensures |Shuffled(s, draws)| == |s|
    ensures multiset(Shuffled(s, draws)) == multiset(s)
  {
    StepsPermute(s, draws, |draws|);
  }

  /** A list of zero or one elements is left as it is. */
  lemma ShortListUnchanged<T>(s: seq<T>, draws: seq<int>)
    requires ValidShuffleDraws(|s|, draws) && |s| <= 1
    ensures Shuffled(s, draws) == s
  {
  }

  /**
   * The Fisher-Yates invariant: after j iterations the positions from
   * |s| - j on are final; later iterations never write them again.
   */
  lemma {:induction false} StepsKeepSuffix<T>(s: seq<T>, draws: seq<int>, j: nat, i: nat)
    requires ValidShuffleDraws(|s|, draws) && j <= i <= |draws|
    ensures forall p :: |s| - j <= p < |s| ==> Steps(s, draws, i)[p] == Steps(s, draws, j)[p]
  {
    if i > j {
      StepsKeepSuffix(s, draws, j, i - 1);
    }
  }

  /** Swapping never makes two positions hold the same element. */
  lemma SwapKeepsDistinct<T>(s: seq<T>, k: nat, n: nat)
    requires k <= n < |s| && Distinct(s)
    ensures Distinct(Swap(s, k, n))
  {
    var r := Swap(s, k, n);
    forall a, b | 0 <= a < b < |r| ensures r[a] != r[b] {
      var a' := if a == k then n else if a == n then k else a;
      var b' := if b == k then n else if b == n then k else b;
      assert r[a] == s[a'] && r[b] == s[b'];
    }
  }

  /** A list without repeats holds every element at most once. */
  lemma {:induction false} DistinctCounts<T>(s: seq<T>, x: T)
    requires Distinct(s)
    ensures multiset(s)[x] <= 1
  {
    if s != [] {
      assert s == [s[0]] + s[1..];
      assert Distinct(s[1..]) by {
        forall i, j | 0 <= i < j < |s[1..]| ensures s[1..][i] != s[1..][j] {
          assert s[1..][i] == s[i + 1] && s[1..][j] == s[j + 1];
        }
      }
      DistinctCounts(s[1..], x);
      if x == s[0] {
        assert x !in s[1..] by {
          forall i | 0 <= i < |s[1..]| ensures s[1..][i] != x {
            assert s[1..][i] == s[i + 1];
          }
        }
      }
    }
  }

  /** A permutation of a list without repeats has no repeats. */
  lemma PermutationKeepsDistinct<T>(a: seq<T>, b: seq<T>)
    requires multiset(a) == multiset(b) && Distinct(a)
    ensures Distinct(b)
  {
    forall i, j | 0 <= i < j < |b| ensures b[i] != b[j] {
      if b[i] == b[j] {
        var x := b[i];
        assert b == b[..j] + [b[j]] + b[j + 1..];
        assert x in b[..j] by { assert b[..j][i] == x; }
        assert multiset(b)[x] >= 2 by {
          assert multiset(b) == multiset(b[..j]) + multiset([b[j]]) + multiset(b[j + 1..]);
        }
        DistinctCounts(a, x);
        assert false;
      }
    }
  }

  lemma {:induction false} StepsKeepDistinct<T>(s: seq<T>, draws: seq<int>, j: nat)
    requires ValidShuffleDraws(|s|, draws) && j <= |draws| && Distinct(s)
    ensures Distinct(Steps(s, draws, j))
  {
    if j > 0 {
      StepsKeepDistinct(s, draws, j - 1);
      SwapKeepsDistinct(Steps(s, draws, j - 1), draws[j - 1], |s| - j);
    }
  }

  /** Shuffle: the in-place loop, proved to compute Shuffled. */
  method Shuffle<T>(a: array<T>, draws: seq<int>)
    requires ValidShuffleDraws(a.Length, draws)
    modifies a
    ensures a[..] == Shuffled(old(a[..]), draws)
  {
    var n := a.Length;
    while n > 1
      invariant a.Length <= 1 ==> n == a.Length && a[..] == old(a[..])
      invariant a.Length > 1 ==> 1 <= n <= a.Length && a[..] == Steps(old(a[..]), draws, a.Length - n)
    {
      n := n - 1;
      var k := draws[a.Length - 1 - n];
      var value := a[k];
      a[k] := a[n];
      a[n] := value;
    }
  }
}
